=== FILE: README.md ===
# SwapNest storefront — decision logic in Dafny

SwapNest's front end is a Next.js storefront: product browsing, a shopping
cart, sign-in, and a profile dashboard for the seller's own listings. Almost
all of it is rendering and calls to a REST backend. This project models the
pure, sequential decisions inside those components, and proves properties of
them:

- **Cart** (`cart.dfy`): the client-local cart kept by the cart provider. It
  is a list of lines with unique ids and quantities of at least 1. It
  supports add (bump or append), remove (decrement or drop), clear, total,
  count and the drawer's open/closed flag. It also covers the drawer's trash
  button, which calls remove once per unit.
- **RouteGuard** (`route_guard.dfy`): the edge middleware. It redirects
  between the auth pages and the rest of the site based on whether the
  `access_token` cookie is present. Its matcher skips only paths whose text
  after the leading `/` starts with `api`, `_next/static`, `_next/image` or
  `favicon?ico` (the dot is a wildcard). Other public files, such as
  `/fonts/…`, `/examples/…` and `/robots.txt`, and `/_next/data/…` are
  guarded like any page, although the comment above the matcher
  (middleware.ts:28-35) lists them as excluded. The model follows the
  regular expression.
- **Catalogue** (`catalogue.dfy`, with `text.dfy`): the product grid. This
  covers the category select's options, the search / category / price
  filter, the number of pages of twelve, the page slice (with JavaScript
  `slice` index rules) and the Previous / Next buttons.
- **Session** (`session.dfy`): the auth provider's state (`user`,
  `isLoading`). Its transitions are check-at-mount, login and logout, each
  driven by the outcome of its API call.
- **RefreshInterceptor** (`refresh.dfy`): the HTTP client's 401 handler. On
  a 401 it refreshes the access token once and re-sends the request once,
  guarded by a global `isRefreshing` flag and a per-request `_retry` mark.
  The server is an oracle: the list of replies it gives to successive sends.
  Both copies of the API client contain this same handler.
- **Listings** (`listings.dfy`): the seller's listings on the profile page.
  This covers replace-by-id after an update, delete-by-id after a delete,
  the edit form and the expand toggle.
- **ProductForm** (`product_form.dfy`): the create-product page. It keeps
  three parallel lists: the picked files, their preview URLs and their
  base64 contents. It appends to all three when files are picked, removes
  one index from all three, and checks the form before submitting.

Browser services are parameters: `preview` stands for
`URL.createObjectURL` and `read` stands for the `FileReader` base64 read,
which may fail. Server replies are inputs: a `ProfileFetch` or `LogoutCall`
outcome, or the reply list given to the interceptor. Navigation appears
only as the target returned by `Logout`.

Three behaviours of the code are easy to mistake, and the model follows
the code in each:

- The cart is local to the browser. It is not persisted on the server, it
  does not refuse a second add of the same product, and its total is not
  one unit per line. A repeated add increments the line's quantity, and
  the total is the sum of price × quantity.
- Logout does not always clear the local user. The code clears it only
  when the logout call succeeds; on failure the state is unchanged and
  nothing navigates.
- The category filter tests `!selectedCategory`. The empty string is
  therefore treated like "no category", and the model keeps that.

## Model

| member | source | states |
|---|---|---|
| Cart.Add | lib/CartContext.tsx:40-50 | an id already in the cart bumps its line by one and changes nothing else, keeping length and order; an absent id appends one line with quantity 1, whatever quantity the item carried |
| Cart.Remove | lib/CartContext.tsx:52-65 | removal never lengthens the cart, and an absent id leaves the cart unchanged |
| Cart.RemoveKeepsOtherLines | lib/CartContext.tsx:54-63 | every line removal leaves with a different id was in the cart, unchanged: removal never invents or alters a line for another id |
| Cart.RemoveKeepsIds | lib/CartContext.tsx:54-63 | every id in the cart after a removal was in the cart before |
| Cart.RemoveDecrements | lib/CartContext.tsx:55-58 | in a valid cart, removing an id whose line has quantity > 1 yields the same cart with that line one unit lower |
| Cart.RemoveDrops | lib/CartContext.tsx:55-61 | in a valid cart, removing an id whose line has quantity 1 deletes exactly that line, with the other lines keeping their order |
| Cart.AddPreservesValid | lib/CartContext.tsx:42-48 | add keeps ids unique and every quantity ≥ 1 |
| Cart.RemovePreservesValid | lib/CartContext.tsx:54-63 | remove keeps ids unique and every quantity ≥ 1 |
| Cart.ReachableValid | lib/CartContext.tsx:37-85 | every cart reachable from the empty cart through add, remove, clear, open and close is valid |
| Cart.TrashLine | components/CartDrawer.tsx:71-74 | calling remove `quantity` times on a displayed line deletes that line entirely and leaves all other lines as they were |
| Cart.Clear | lib/CartContext.tsx:67-69 | clearing leaves the empty (valid) cart and does not touch the drawer flag |
| Cart.EmptySums | lib/CartContext.tsx:71-77 | the initial cart has total 0 and count 0 |
| Cart.AddCount | lib/CartContext.tsx:75-77 | in a valid cart, add raises the count (sum of quantities) by exactly 1 |
| Cart.AddTotal | lib/CartContext.tsx:71-73 | in a valid cart, add raises the total (sum of price × quantity) by the new item's price for a new line, or by the existing line's price |
| Cart.RemoveCount | lib/CartContext.tsx:75-77 | in a valid cart, removing a present id lowers the count by exactly 1 |
| Cart.RemoveTotal | lib/CartContext.tsx:71-73 | in a valid cart, removing a present id lowers the total by that line's price |
| Cart.Total | lib/CartContext.tsx:71-73 | the total of the empty cart is 0, and it is never negative when no price or quantity is |
| Cart.Count | lib/CartContext.tsx:75-77 | the count of the empty cart is 0, and a cart whose quantities are all at least 1 counts at least one unit per line |
| Cart.Open | lib/CartContext.tsx:79-81 | opening sets the drawer flag and leaves the lines untouched |
| Cart.Close | lib/CartContext.tsx:83-85 | closing clears the drawer flag and leaves the lines untouched |
| Cart.DrawerToggles | lib/CartContext.tsx:79-85 | whatever actions ran before, a final open leaves the drawer open and a final close leaves it closed, and neither changes the lines |
| RouteGuard.Guard | middleware.ts:4-23 | redirect to `/` exactly for an auth page with the cookie; redirect to `/login` exactly for a non-auth page without it; pass through exactly when the two disagree |
| RouteGuard.Matched | middleware.ts:36 | a path is selected exactly when it starts with `/` and its text after `/` does not start with an excluded prefix: every other `/` path, `/` itself included, is guarded |
| RouteGuard.PublicFilesAreGuarded | middleware.ts:36 | public files other than the favicon are not exempted: without the cookie, `/fonts/a.woff` and `/robots.txt` are redirected to `/login` |
| RouteGuard.LookaheadIsPrefixOnly | middleware.ts:36 | the lookahead tests a prefix, not a path segment: `/apiary` and `/api-docs` skip the middleware whatever the cookies |
| RouteGuard.Route | middleware.ts:36 | paths the matcher does not select always pass through; selected paths get the guard's decision |
| RouteGuard.PagesAreMatched | middleware.ts:36 | `/`, `/login` and `/register` are all selected by the matcher |
| RouteGuard.NoRedirectLoop | middleware.ts:13-22 | with the same cookies, requesting the redirect target always passes through |
| RouteGuard.ExcludedPathsPass | middleware.ts:36 | a path whose text after `/` starts with `api`, `_next/static`, `_next/image` or `favicon?ico` passes through with any cookies |
| RouteGuard.GuardScenarios | middleware.ts:9-20 | an anonymous visit to `/profile` is sent to `/login`; a signed-in visit to `/login` is sent to `/` |
| Catalogue.CategoryOptions | components/ProductsSection.tsx:37-43 | the options are "All" followed by one option per category name, in order, with value equal to label; only "All" when categories are missing |
| Catalogue.SelectCategory | components/ProductsSection.tsx:121 | clearing the select, or picking an option with an empty value, clears the category; any other pick selects its value |
| Catalogue.SelectedOptionFilters | components/ProductsSection.tsx:53-56 | after picking an option, a product passes the category test exactly when the option is cleared, "All", empty, or names the product's category |
| Catalogue.FilterList | components/ProductsSection.tsx:48-60 | the result is an order-preserving subsequence of the products, holding each product that passes search, category and price as often as the input does and no other product |
| Catalogue.FilteredProducts | components/ProductsSection.tsx:46-61 | empty while products are not loaded; otherwise the kept subsequence described above |
| Catalogue.FilterMembership | components/ProductsSection.tsx:50-59 | a product is in the filtered list exactly when it is in the input and its lower-cased title contains the lower-cased term, the category matches, and lo ≤ price ≤ hi |
| Catalogue.FilterPartition | components/ProductsSection.tsx:48-60 | kept products plus dropped products account for the whole input |
| Catalogue.DefaultFiltersKeep | components/ProductsSection.tsx:21-25 | the initial filters (empty search, no category, [0, 1000000]) keep a product exactly when its price lies in that range |
| Catalogue.DefaultFiltersKeepAll | components/ProductsSection.tsx:46-61 | with the initial filters and all prices in range, the filtered list is the whole product list |
| Catalogue.MatchesSearch | components/ProductsSection.tsx:50-52 | the search test holds exactly when the lower-cased term occurs at some position of the lower-cased title; the empty term matches every product |
| Catalogue.MatchesCategory | components/ProductsSection.tsx:53-56 | no selection, the empty string and "All" keep every product; any other selection keeps exactly the products of that category |
| Catalogue.MatchesPrice | components/ProductsSection.tsx:57-58 | every price in the range is kept, both ends included; a price outside it is dropped, and an inverted range keeps nothing |
| Catalogue.Keep | components/ProductsSection.tsx:48-59 | a product is kept exactly when the term occurs in its title, its category is accepted and its price lies in the range |
| Text.Lower | components/ProductsSection.tsx:50-52 | lower-casing keeps the length, turns each ASCII capital into its small letter, keeps every other character, and leaves no ASCII capital |
| Text.LowerIdempotent | components/ProductsSection.tsx:50-52 | lower-casing an already lower-cased string changes nothing |
| Text.Contains | components/ProductsSection.tsx:50-52 | `includes` holds for every prefix, the empty string included, and never for a term longer than the title |
| Text.ContainsIffOccurs | components/ProductsSection.tsx:50-52 | the `includes` test holds exactly when the term occurs at some position of the title |
| Catalogue.TotalPages | components/ProductsSection.tsx:63-66 | the page count is the least t with 12·t ≥ n, so it is 0 exactly when nothing matches |
| Catalogue.SliceIndex | components/ProductsSection.tsx:70 | a `slice` index in range is kept, a negative one counts back from the end, and anything outside is clamped to 0 or the length |
| Catalogue.Slice | components/ProductsSection.tsx:70 | `slice` yields the elements from the resolved start up to the resolved end, in order, and nothing when the end does not lie after the start |
| Catalogue.Page | components/ProductsSection.tsx:68-71 | page p holds at most 12 items: the items from (p-1)·12 up to min(12p, n) when that start is in range, and none for page 0 or beyond the last page |
| Catalogue.PagesCoverAll | components/ProductsSection.tsx:63-71 | pages 1 to totalPages, concatenated, give back the filtered list |
| Catalogue.PrevPage | components/ProductsSection.tsx:228 | Previous steps back by one from any page above 1 and lands on page 1 from page 1 or below (page 0 included) |
| Catalogue.OnClick | components/ProductsSection.tsx:226-241 | a click, with the buttons' disabled states taken into account, always lands where the Previous or Next handler sends the page: disabling never changes the outcome |
| Catalogue.NextPage | components/ProductsSection.tsx:238 | Next never goes beyond totalPages, steps forward by one below it, and yields 0 when totalPages is 0 |
| Catalogue.DisabledButtonsAreNoOps | components/ProductsSection.tsx:226-241 | for every page, Previous leaves it unchanged exactly on page 1 and Next exactly on the last page, which are where the buttons are disabled |
| Catalogue.NavigateStaysNonNegative | components/ProductsSection.tsx:223-242 | from a page ≥ 0, any clicks (while the page count changes) keep the page ≥ 0; page 0 is reached only by Next while nothing matches |
| Catalogue.NavigateStaysInRange | components/ProductsSection.tsx:223-242 | with a fixed positive page count, a page in [1, totalPages] stays there |
| Catalogue.PageZeroShowsNothing | components/ProductsSection.tsx:68-71 | page 0 is reachable from page 1 and shows no items, whatever the filtered list |
| Session.CheckAuth | lib/contexts/AuthContext.tsx:24-33 | after the mount check the user is the fetched profile, or none on failure, and loading is over either way |
| Session.Login | lib/contexts/AuthContext.tsx:35-44 | a successful login sets the user and ends loading; a failed one clears the user and leaves the loading flag as it was |
| Session.Logout | lib/contexts/AuthContext.tsx:46-54 | a successful logout clears the user and navigates to `/login`; a failed one changes nothing and does not navigate |
| Session.AuthenticatedAfterSuccess | lib/contexts/AuthContext.tsx:24-57 | `isAuthenticated` (`!!user`) is true after a successful check or login and false after a failed one |
| Session.LoginIgnoresToken | lib/contexts/AuthContext.tsx:35-38 | the token passed to login has no effect on the resulting state |
| Session.LoadingUntilResolved | lib/contexts/AuthContext.tsx:18-44 | loading is still true after a run of events exactly when it started true and no check or successful login happened |
| Session.InitialLoading | lib/contexts/AuthContext.tsx:17-18 | from the mount state (no user, loading), loading ends exactly when some event resolved it |
| Session.LogoutOutcomes | lib/contexts/AuthContext.tsx:46-54 | nobody is signed in after a successful logout; a failed logout keeps whoever was signed in |
| Session.LoginScenario | lib/contexts/AuthContext.tsx:24-44 | after a failed mount check, a successful login signs the fetched user in and loading is over |
| RefreshInterceptor.Send | lib/apiClient.ts:12-22 | every send leaves `isRefreshing` as it found it, sends the request first, and sends at most three requests; a send with the flag set or the request marked sends only itself |
| RefreshInterceptor.OnError | lib/apiClient.ts:14-28 | the handler restores the flag; it sends at most the refresh call followed by the marked request; when the reply is not a 401, or the request is marked, or a refresh is running, it rejects the same error with nothing sent |
| RefreshInterceptor.SuccessPassesThrough | lib/apiClient.ts:13 | a 2xx reply resolves unchanged, with nothing else sent |
| RefreshInterceptor.OtherErrorsRejected | app/lib/apiClient.ts:16-27 | a non-401 failure, including no response at all, is rejected with the same error; there is no refresh and the flag is unchanged |
| RefreshInterceptor.GuardedUnauthorizedRejected | app/lib/apiClient.ts:16 | a 401 on an already retried request, or while a refresh is running, is rejected without a refresh |
| RefreshInterceptor.RefreshFailureRejectsOriginal | lib/apiClient.ts:23-27 | when the refresh call fails (even with its own 401, which does not recurse), the original error is rejected after that single call and the flag is clear |
| RefreshInterceptor.RefreshSuccessRetriesOnce | app/lib/apiClient.ts:19-22 | when the refresh succeeds, the request is marked and re-sent exactly once; that reply settles the promise, and a second 401 is rejected with no further refresh |
| RefreshInterceptor.BoundedRetry | lib/apiClient.ts:16-22 | per request: at most three sends (request, one refresh, request marked as retried), the flag clear afterwards, and a two-send exchange rejects the original request's error |
| RefreshInterceptor.ScenarioRecovered | lib/apiClient.ts:16-22 | 401, then a successful refresh, then 200: the request resolves after exactly one retry |
| RefreshInterceptor.ScenarioSecondUnauthorized | app/lib/apiClient.ts:16-27 | 401, then a successful refresh, then 401 again: rejected after three sends with no second refresh |
| Listings.ReplaceById | components/profile/user-listings.tsx:30 | update success keeps length, order and ids, replaces every listing with the updated id, and keeps all others |
| Listings.ReplaceByIdLaws | components/profile/user-listings.tsx:30 | replacing by an id nobody carries changes nothing; replacing twice is replacing once |
| Listings.OnUpdateSuccess | components/profile/user-listings.tsx:28-33 | after an update succeeds, the list handed to `updateListings` holds the server's copy and editingId is back to `""` |
| Listings.DeleteById | components/profile/user-listings.tsx:47 | delete success removes every listing with that id and keeps the others, in order, each as often as before |
| Listings.DeleteAbsentIsIdentity | components/profile/user-listings.tsx:47 | deleting an id nobody carries changes nothing |
| Listings.DeleteIdempotent | components/profile/user-listings.tsx:47 | deleting twice is deleting once |
| Listings.DeleteCounts | components/profile/user-listings.tsx:45-50 | survivors plus listings carrying the id account for the whole list |
| Listings.OnDeleteSuccess | components/profile/user-listings.tsx:45-50 | after a delete succeeds, the list handed to `updateListings` is the filtered one, and editingId, expandedId and the form stay as they were |
| Listings.HandleEdit | components/profile/user-listings.tsx:68-71 | edit mode is set to the listing's id and the form starts from that listing, with nothing else changed |
| Listings.EditThenSave | components/profile/user-listings.tsx:28-71 | editing a listing and saving it leaves editing off and the saved copy at that listing's position |
| Listings.ToggleExpand | components/profile/user-listings.tsx:113-115 | the toggle collapses exactly when the card is the expanded one, and otherwise expands that card |
| Listings.ToggleTwice | components/profile/user-listings.tsx:113-115 | toggling twice returns to the start when nothing or this card was expanded, and collapses otherwise |
| ProductForm.ReadAll | app/products/page.tsx:86-92 | the reads succeed exactly when every file's read does, giving one content per file in order |
| ProductForm.HandleFileChange | app/products/page.tsx:77-100 | (corrected) picked files, previews and contents are appended after the existing ones, in order, or nothing changes if a read fails; the lists stay parallel and the other fields are untouched |
| ProductForm.AsWrittenAgreesWhenReadsSucceed | app/products/page.tsx:77-100 | when every read succeeds, the handler as written equals the corrected one |
| ProductForm.HandleFileChangeAsWritten | app/products/page.tsx:77-100 | as written: the picked files are always appended; the previews and contents are appended only when every read succeeds, and otherwise the thumbnails and the form are untouched; thumbnails and contents stay paired either way |
| ProductForm.AsWrittenDesyncs | app/products/page.tsx:80-98 | as written, a failed read appends the file but neither a preview nor a content, so the file list alone falls out of step |
| ProductForm.MisalignedRemoveMismatches | app/products/page.tsx:102-109 | after such a failed read, clicking the one thumbnail removes its preview and content together, as intended, but leaves a stale entry in the file list |
| ProductForm.AsWrittenKeepsVisiblePaired | app/products/page.tsx:77-109 | with the handler as written, any picks, removals and field choices keep the thumbnails and the submitted contents paired: the misaligned file list is never seen |
| ProductForm.CorrectedIgnoresFailedPick | app/products/page.tsx:77-100 | the corrected handler changes nothing when any picked file fails to read |
| ProductForm.DropIndex | app/products/page.tsx:103-107 | an in-range index deletes exactly that element and shifts the later ones down; an out-of-range index leaves the list unchanged |
| ProductForm.RemoveImage | app/products/page.tsx:102-109 | the same index leaves files, previews and contents; the lists stay parallel and the other fields are untouched |
| ProductForm.ReachableAligned | app/products/page.tsx:29-109 | from a parallel state (the initial one included), any picks, removals and field choices keep the three lists parallel |
| ProductForm.Submit | app/products/page.tsx:110-122 | an empty category is reported first; then an empty image list; otherwise create is called exactly once with the form as it stands |
| ProductForm.FreshFormNeedsCategory | app/products/page.tsx:29-37 | a form whose category is still the initial empty one is refused for the missing category |

## Findings

| source | as written | input that shows it | evidently intended | confidence | as-written member | corrected member |
|---|---|---|---|---|---|---|
| app/products/page.tsx:80-98 | the picked files are appended to `selectedFiles` before the base64 reads are awaited; a rejected read throws out of the handler before the previews and contents are appended, and the rejection is not handled | one picked file whose `FileReader` read fails (for example, a file removed from disk after it was picked) | the three lists the component keeps side by side (files, previews, contents) stay the same length | low, not executed | ProductForm.AsWrittenDesyncs | ProductForm.HandleFileChange |

`ProductForm.HandleFileChangeAsWritten` models the handler as written. The
form's event model (`ProductForm.Run`, `ProductForm.ReachableAligned`) uses
the corrected `HandleFileChange`.

The misalignment cannot be seen. `selectedFiles` is written (lines 38, 80
and 103) but never read: the thumbnails come from `previewUrls` and submit
sends `formData.images`. Those two stay paired under the handler as written
(`ProductForm.AsWrittenKeepsVisiblePaired`), so `removeImage(i)` still
removes the thumbnail that was clicked together with its content. What a
user does see is that a pick with one unreadable file is dropped as a
whole, with no error message, because the rejected promise escapes the
handler. The corrected handler drops such a pick the same way and changes
only the unread list.

## Left out

- Rendering: JSX, styling, animation, toasts and the error boundary. These have no decision logic.
- Network and libraries: axios transport, the thin endpoint wrappers, react-query caching, loading and error branches, and the refetch after a mutation. Server answers appear only as outcome inputs.
- Navigation: `router.push` appears only as the target that `Session.Logout` returns. The redirect after a product is created is not modelled.
- Concurrency: overlapping requests that race on `isRefreshing`. Only sequential runs are modelled.
- Listings.OnUpdateSuccess / Listings.OnDeleteSuccess: the new list is not stored by the component. It goes to the parent's `updateListings` (components/profile/user-profile.tsx:40-53). That function sends one update request per listing in the list, all at once, and refetches the profile only if every one succeeds. If any of them fails, the page keeps showing the old list and reports "Failed to update listings", even though the update or delete itself succeeded. The model stops at the list handed over.
- RefreshInterceptor.Send: an exhausted reply list is read as a network failure (no response). The 2xx success range is axios's default status check.
- Floating point: prices are exact `real` numbers. Float rounding, `toFixed`, `parseFloat` and `Number` of the input text are not modelled.
- Text.Lower: lower-cases ASCII letters only. Unicode case mapping is not modelled.
- RouteGuard.Matched: the matcher's `.*` does not match line terminators; pathnames containing them are not modelled. The model also does not reproduce how Next.js compiles the matcher into a regular expression.
- Cart.RemoveDecrements: stated for valid carts (unique ids, quantities ≥ 1) only. With duplicate ids, remove changes every matching line. `Cart.ReachableValid` shows that such carts never arise.
- Cart.TrashLine: stated for a valid cart and a line on display, which is the only way the button exists.
- Free-text form fields (`handleChange`, `handleInputChange`) are not modelled. Only category and condition choices are events in `ProductForm.Run`.
- The image list of a product, timestamps, and the profile's listings, purchases and reports are left out of the datatypes. No modelled decision reads them.
- `ProductsSection` awaits a result from `addToCart`, which returns nothing. That mismatched call site is not modelled.
- A server-persisted cart (add, update, remove through the cart endpoints) is not used by the cart provider and is not modelled.

=== FILE: cart.dfy ===
/** The client-local shopping cart held by the cart provider: an ordered
    list of lines, one per product id, each with a quantity, plus the
    drawer's open/closed flag. */
module Cart {

  datatype CartItem = CartItem(id: int, name: string, price: real, quantity: int, image: string)

  type Lines = seq<CartItem>

  datatype CartState = CartState(items: Lines, isCartOpen: bool)

  /** The provider's initial state: an empty cart with the drawer closed. */
  const Initial: CartState := CartState([], false)

  /** Some line of the cart carries `id` (the `find` in `addToCart`). */
  predicate InCart(cart: Lines, id: int)
  {
    exists i :: 0 <= i < |cart| && cart[i].id == id
  }

  /** The invariant every reachable cart keeps: ids are pairwise distinct and
      every quantity is at least 1. */
  predicate Valid(cart: Lines)
  {
    && (forall i, j :: 0 <= i < j < |cart| ==> cart[i].id != cart[j].id)
    && (forall i :: 0 <= i < |cart| ==> cart[i].quantity >= 1)
  }

  /** The line `cart[i]` with one more unit. */
  function Bump(item: CartItem): CartItem
  {
    item.(quantity := item.quantity + 1)
  }

  /** `addToCart`: an existing line for the id gains one unit; otherwise the
      item is appended with quantity 1, whatever quantity it was given. */
  function Add(cart: Lines, item: CartItem): (r: Lines)
    ensures InCart(cart, item.id) ==>
      && |r| == |cart|
      && forall i :: 0 <= i < |cart| ==>
           r[i] == (if cart[i].id == item.id then Bump(cart[i]) else cart[i])
    ensures !InCart(cart, item.id) ==> r == cart + [item.(quantity := 1)]
  {
    if InCart(cart, item.id) then
      seq(|cart|, i requires 0 <= i < |cart| =>
        if cart[i].id == item.id then Bump(cart[i]) else cart[i])
    else
      cart + [item.(quantity := 1)]
  }

  /** What one line contributes to the accumulator of `removeFromCart`'s
      reduce: a matching line loses one unit, or disappears at quantity 1. */
  function RemoveStep(item: CartItem, id: int): Lines
  {
    if item.id == id then
      if item.quantity > 1 then [item.(quantity := item.quantity - 1)] else []
    else [item]
  }

  /** `removeFromCart`: the left-to-right reduce, one step per line. */
  function Remove(cart: Lines, id: int): (r: Lines)
    ensures |r| <= |cart|
    ensures !InCart(cart, id) ==> r == cart
    decreases |cart|
  {
    if |cart| == 0 then []
    else RemoveStep(cart[0], id) + Remove(cart[1..], id)
  }

  /** `clearCart`: the empty list, drawer flag untouched. */
  function Clear(s: CartState): (r: CartState)
    ensures |r.items| == 0 && Valid(r.items)
    ensures r.isCartOpen == s.isCartOpen
  {
    s.(items := [])
  }

  /** `openCart`: only the drawer flag changes. */
  function Open(s: CartState): (r: CartState)
    ensures r.isCartOpen && r.items == s.items
  {
    s.(isCartOpen := true)
  }

  /** `closeCart`: only the drawer flag changes. */
  function Close(s: CartState): (r: CartState)
    ensures !r.isCartOpen && r.items == s.items
  {
    s.(isCartOpen := false)
  }

  /** `getCartTotal`: the sum of price times quantity over the lines; 0 for
      the empty cart, and never negative when no price or quantity is. */
  function Total(cart: Lines): (r: real)
    ensures |cart| == 0 ==> r == 0.0
    ensures (forall i :: 0 <= i < |cart| ==> cart[i].price >= 0.0 && cart[i].quantity >= 0) ==> r >= 0.0
    decreases |cart|
  {
    if |cart| == 0 then 0.0 else Share(cart[0]) + Total(cart[1..])
  }

  /** One line's contribution to the total. */
  function Share(item: CartItem): (r: real)
    ensures item.price >= 0.0 && item.quantity >= 0 ==> r >= 0.0
  {
    item.price * item.quantity as real
  }

  /** `getCartCount`: the sum of the quantities; 0 for the empty cart, and
      at least one unit per line when every quantity is at least 1 (as in
      every valid cart). */
  function Count(cart: Lines): (r: int)
    ensures |cart| == 0 ==> r == 0
    ensures (forall i :: 0 <= i < |cart| ==> cart[i].quantity >= 1) ==> r >= |cart|
    decreases |cart|
  {
    if |cart| == 0 then 0 else cart[0].quantity + Count(cart[1..])
  }

  // ---------------------------------------------------------------------
  // The cart as a state machine driven by the provider's callbacks.

  datatype Action =
    | AddItem(item: CartItem)
    | RemoveItem(id: int)
    | ClearItems
    | OpenDrawer
    | CloseDrawer

  function Apply(s: CartState, a: Action): CartState
  {
    match a
    case AddItem(item) => s.(items := Add(s.items, item))
    case RemoveItem(id) => s.(items := Remove(s.items, id))
    case ClearItems => Clear(s)
    case OpenDrawer => Open(s)
    case CloseDrawer => Close(s)
  }

  function Run(s: CartState, actions: seq<Action>): CartState
    decreases |actions|
  {
    if |actions| == 0 then s else Run(Apply(s, actions[0]), actions[1..])
  }

  // ---------------------------------------------------------------------
  // Properties

  /** In a valid cart at most one line carries a given id. */
  lemma UniqueIndex(cart: Lines, id: int, k: int, j: int)
    requires Valid(cart)
    requires 0 <= k < |cart| && 0 <= j < |cart|
    requires cart[k].id == id && cart[j].id == id
    ensures k == j
  {
  }

  /** A valid cart is its head followed by a valid tail that does not hold
      the head's id, and conversely. */
  lemma ValidCons(cart: Lines)
    requires |cart| > 0
    ensures Valid(cart) <==>
      cart[0].quantity >= 1 && !InCart(cart[1..], cart[0].id) && Valid(cart[1..])
  {
    var tail := cart[1..];
    if Valid(cart) {
      forall i, j | 0 <= i < j < |tail| ensures tail[i].id != tail[j].id {
        assert tail[i] == cart[i + 1] && tail[j] == cart[j + 1];
      }
    }
    if cart[0].quantity >= 1 && !InCart(tail, cart[0].id) && Valid(tail) {
      forall i, j | 0 <= i < j < |cart| ensures cart[i].id != cart[j].id {
        assert cart[j] == tail[j - 1];
        if i > 0 {
          assert cart[i] == tail[i - 1];
        }
      }
    }
  }

  /** Adding keeps the cart valid. */
  lemma AddPreservesValid(cart: Lines, item: CartItem)
    requires Valid(cart)
    ensures Valid(Add(cart, item))
  {
    var r := Add(cart, item);
    if !InCart(cart, item.id) {
      forall i, j | 0 <= i < j < |r|
        ensures r[i].id != r[j].id
      {
        if j == |cart| {
          assert r[i] == cart[i];
        }
      }
    }
  }

  /** Every line left by a removal carries an id the cart already held. */
  lemma {:induction false} RemoveKeepsIds(cart: Lines, id: int, other: int)
    requires InCart(Remove(cart, id), other)
    ensures InCart(cart, other)
    decreases |cart|
  {
    var h := RemoveStep(cart[0], id);
    var r := Remove(cart, id);
    var i :| 0 <= i < |r| && r[i].id == other;
    if i < |h| {
      assert cart[0].id == other;
    } else {
      assert Remove(cart[1..], id)[i - |h|].id == other;
      RemoveKeepsIds(cart[1..], id, other);
      var j :| 0 <= j < |cart[1..]| && cart[1..][j].id == other;
      assert cart[j + 1].id == other;
    }
  }

  /** A removal only touches the lines carrying `id`: every other line it
      leaves was in the cart as it is. */
  lemma {:induction false} RemoveKeepsOtherLines(cart: Lines, id: int, x: CartItem)
    requires x in Remove(cart, id) && x.id != id
    ensures x in cart
    decreases |cart|
  {
    var h := RemoveStep(cart[0], id);
    if x in h {
      assert x == cart[0];
    } else {
      RemoveKeepsOtherLines(cart[1..], id, x);
    }
  }

  /** Removing keeps the cart valid. */
  lemma {:induction false} RemovePreservesValid(cart: Lines, id: int)
    requires Valid(cart)
    ensures Valid(Remove(cart, id))
    decreases |cart|
  {
    if |cart| > 0 {
      var tail := cart[1..];
      ValidCons(cart);
      RemovePreservesValid(tail, id);
      var rest := Remove(tail, id);
      if InCart(rest, cart[0].id) {
        RemoveKeepsIds(tail, id, cart[0].id);
      }
      var h := RemoveStep(cart[0], id);
      assert Remove(cart, id) == h + rest;
      if |h| == 1 {
        assert h + rest == [h[0]] + rest;
        ValidCons(h + rest);
        assert (h + rest)[1..] == rest;
      } else {
        assert h + rest == rest;
      }
    }
  }

  /** Updating a later line of a cart is updating that line of its tail. */
  lemma UpdateCons(cart: Lines, k: int, x: CartItem)
    requires 0 < k < |cart|
    ensures cart[k := x] == [cart[0]] + cart[1..][k - 1 := x]
  {
  }

  /** Dropping a later line of a cart is dropping that line of its tail. */
  lemma DropCons(cart: Lines, k: int)
    requires 0 < k < |cart|
    ensures cart[..k] + cart[k + 1..] == [cart[0]] + (cart[1..][..k - 1] + cart[1..][k..])
  {
    assert cart[..k] == [cart[0]] + cart[1..][..k - 1];
    assert cart[k + 1..] == cart[1..][k..];
  }

  /** A removal passes over a head line that carries another id. */
  lemma RemoveSkipsHead(cart: Lines, id: int)
    requires |cart| > 0 && cart[0].id != id
    ensures Remove(cart, id) == [cart[0]] + Remove(cart[1..], id)
  {
  }

  /** Removing an id whose line has quantity above 1 decrements that line
      and leaves every other line where and as it was. */
  lemma {:induction false} RemoveDecrements(cart: Lines, k: int)
    requires Valid(cart)
    requires 0 <= k < |cart| && cart[k].quantity > 1
    ensures Remove(cart, cart[k].id) == cart[k := cart[k].(quantity := cart[k].quantity - 1)]
    decreases |cart|
  {
    var id := cart[k].id;
    var x := cart[k].(quantity := cart[k].quantity - 1);
    var tail := cart[1..];
    if k == 0 {
      assert Remove(tail, id) == tail by { ValidCons(cart); }
      assert cart[k := x] == [x] + tail;
    } else {
      assert tail[k - 1] == cart[k];
      assert Valid(tail) && cart[0].id != id by { ValidCons(cart); }
      RemoveDecrements(tail, k - 1);
      RemoveSkipsHead(cart, id);
      UpdateCons(cart, k, x);
    }
  }

  /** Removing an id whose line has quantity 1 drops exactly that line. */
  lemma {:induction false} RemoveDrops(cart: Lines, k: int)
    requires Valid(cart)
    requires 0 <= k < |cart| && cart[k].quantity == 1
    ensures Remove(cart, cart[k].id) == cart[..k] + cart[k + 1..]
    decreases |cart|
  {
    var id := cart[k].id;
    var tail := cart[1..];
    if k == 0 {
      assert Remove(tail, id) == tail by { ValidCons(cart); }
      assert cart[..k] + cart[k + 1..] == tail;
    } else {
      assert tail[k - 1] == cart[k];
      assert Valid(tail) && cart[0].id != id by { ValidCons(cart); }
      RemoveDrops(tail, k - 1);
      RemoveSkipsHead(cart, id);
      DropCons(cart, k);
    }
  }

  /** The trash button: `removeFromCart(item.id)` issued `item.quantity`
      times, for the line `cart[k]` on display, removes that line entirely
      and leaves every other line as it was. */
  method TrashLine(cart: Lines, k: int) returns (r: Lines)
    requires Valid(cart) && 0 <= k < |cart|
    ensures r == cart[..k] + cart[k + 1..]
  {
    var item := cart[k];
    r := cart;
    var i := 0;
    while i < item.quantity
      invariant 0 <= i <= item.quantity
      invariant i < item.quantity ==> r == cart[k := item.(quantity := item.quantity - i)]
      invariant i == item.quantity ==> r == cart[..k] + cart[k + 1..]
      decreases item.quantity - i
    {
      assert Valid(r) by {
        forall a, b | 0 <= a < b < |r| ensures r[a].id != r[b].id {
          assert r[a].id == cart[a].id && r[b].id == cart[b].id;
        }
      }
      if i + 1 < item.quantity {
        RemoveDecrements(r, k);
        assert r[k := r[k].(quantity := r[k].quantity - 1)]
            == cart[k := item.(quantity := item.quantity - (i + 1))];
      } else {
        RemoveDrops(r, k);
        assert r[..k] + r[k + 1..] == cart[..k] + cart[k + 1..];
      }
      r := Remove(r, item.id);
      i := i + 1;
    }
  }

  /** Replacing line `k` changes the count by that line's difference alone. */
  lemma {:induction false} CountOfUpdate(cart: Lines, k: int, x: CartItem)
    requires 0 <= k < |cart|
    ensures Count(cart[k := x]) == Count(cart) - cart[k].quantity + x.quantity
    decreases k
  {
    if k > 0 {
      CountOfUpdate(cart[1..], k - 1, x);
      assert cart[k := x][1..] == cart[1..][k - 1 := x];
    }
  }

  /** Replacing line `k` changes the total by that line's difference alone. */
  lemma {:induction false} TotalOfUpdate(cart: Lines, k: int, x: CartItem)
    requires 0 <= k < |cart|
    ensures Total(cart[k := x]) == Total(cart) - Share(cart[k]) + Share(x)
    decreases k
  {
    if k > 0 {
      TotalOfUpdate(cart[1..], k - 1, x);
      assert cart[k := x][1..] == cart[1..][k - 1 := x];
    }
  }

  /** Dropping line `k` lowers count and total by that line's share. */
  lemma {:induction false} SumsOfDrop(cart: Lines, k: int)
    requires 0 <= k < |cart|
    ensures Count(cart[..k] + cart[k + 1..]) == Count(cart) - cart[k].quantity
    ensures Total(cart[..k] + cart[k + 1..]) == Total(cart) - Share(cart[k])
    decreases k
  {
    if k == 0 {
      assert cart[..k] + cart[k + 1..] == cart[1..];
    } else {
      SumsOfDrop(cart[1..], k - 1);
      var d := cart[..k] + cart[k + 1..];
      assert d[0] == cart[0];
      assert d[1..] == cart[1..][..k - 1] + cart[1..][k..];
    }
  }

  /** Appending one line adds its share to count and total. */
  lemma {:induction false} SumsOfAppend(cart: Lines, x: CartItem)
    ensures Count(cart + [x]) == Count(cart) + x.quantity
    ensures Total(cart + [x]) == Total(cart) + Share(x)
    decreases |cart|
  {
    if |cart| == 0 {
      assert [] + [x] == [x];
    } else {
      SumsOfAppend(cart[1..], x);
      assert (cart + [x])[1..] == cart[1..] + [x];
    }
  }

  /** One more unit adds the line's price to its share of the total. */
  lemma OneMoreUnit(x: CartItem)
    ensures Share(Bump(x)) == Share(x) + x.price
  {
  }

  /** The empty cart counts 0 units and totals 0. */
  lemma EmptySums()
    ensures Count(Initial.items) == 0 && Total(Initial.items) == 0.0
  {
  }

  /** In a valid cart, adding an id already present bumps exactly that line. */
  lemma AddPresentIsUpdate(cart: Lines, item: CartItem, k: int)
    requires Valid(cart) && 0 <= k < |cart| && cart[k].id == item.id
    ensures Add(cart, item) == cart[k := Bump(cart[k])]
  {
    var r := Add(cart, item);
    forall i | 0 <= i < |cart| ensures r[i] == cart[k := Bump(cart[k])][i] {
      if i != k && cart[i].id == item.id {
        UniqueIndex(cart, item.id, i, k);
      }
    }
  }

  /** Adding to a valid cart raises the count by exactly one. */
  lemma AddCount(cart: Lines, item: CartItem)
    requires Valid(cart)
    ensures Count(Add(cart, item)) == Count(cart) + 1
  {
    if InCart(cart, item.id) {
      var k :| 0 <= k < |cart| && cart[k].id == item.id;
      AddPresentIsUpdate(cart, item, k);
      CountOfUpdate(cart, k, Bump(cart[k]));
    } else {
      SumsOfAppend(cart, item.(quantity := 1));
    }
  }

  /** Adding to a valid cart raises the total by the price of the line that
      gained the unit: the item's own price for a new line, the existing
      line's price otherwise. */
  lemma AddTotal(cart: Lines, item: CartItem)
    requires Valid(cart)
    ensures !InCart(cart, item.id) ==> Total(Add(cart, item)) == Total(cart) + item.price
    ensures forall k :: 0 <= k < |cart| && cart[k].id == item.id ==>
              Total(Add(cart, item)) == Total(cart) + cart[k].price
  {
    if InCart(cart, item.id) {
      var k :| 0 <= k < |cart| && cart[k].id == item.id;
      AddPresentIsUpdate(cart, item, k);
      var x := cart[k];
      TotalOfUpdate(cart, k, Bump(x));
      OneMoreUnit(x);
      forall k' | 0 <= k' < |cart| && cart[k'].id == item.id
        ensures Total(Add(cart, item)) == Total(cart) + cart[k'].price
      {
        UniqueIndex(cart, item.id, k, k');
      }
    } else {
      SumsOfAppend(cart, item.(quantity := 1));
    }
  }

  /** Removing a present id from a valid cart lowers the count by exactly one. */
  lemma RemoveCount(cart: Lines, k: int)
    requires Valid(cart) && 0 <= k < |cart|
    ensures Count(Remove(cart, cart[k].id)) == Count(cart) - 1
  {
    var x := cart[k];
    if x.quantity > 1 {
      RemoveDecrements(cart, k);
      CountOfUpdate(cart, k, x.(quantity := x.quantity - 1));
    } else {
      RemoveDrops(cart, k);
      SumsOfDrop(cart, k);
    }
  }

  /** Removing a present id from a valid cart lowers the total by that
      line's price. */
  lemma RemoveTotal(cart: Lines, k: int)
    requires Valid(cart) && 0 <= k < |cart|
    ensures Total(Remove(cart, cart[k].id)) == Total(cart) - cart[k].price
  {
    var x := cart[k];
    if x.quantity > 1 {
      RemoveDecrements(cart, k);
      TotalOfUpdate(cart, k, x.(quantity := x.quantity - 1));
      OneMoreUnit(x.(quantity := x.quantity - 1));
      assert Bump(x.(quantity := x.quantity - 1)) == x;
    } else {
      RemoveDrops(cart, k);
      SumsOfDrop(cart, k);
    }
  }

  /** Running two action lists one after the other is running their
      concatenation. */
  lemma {:induction false} RunAppend(s: CartState, a: seq<Action>, b: seq<Action>)
    ensures Run(s, a + b) == Run(Run(s, a), b)
    decreases |a|
  {
    if |a| == 0 {
      assert a + b == b;
    } else {
      RunAppend(Apply(s, a[0]), a[1..], b);
      assert (a + b)[1..] == a[1..] + b;
    }
  }

  /** Every state reachable through the provider's callbacks from a valid
      one (in particular from the initial state) holds a valid cart. */
  lemma {:induction false} ReachableValid(s: CartState, actions: seq<Action>)
    requires Valid(s.items)
    ensures Valid(Run(s, actions).items)
    decreases |actions|
  {
    if |actions| > 0 {
      match actions[0] {
        case AddItem(item) => AddPreservesValid(s.items, item);
        case RemoveItem(id) => RemovePreservesValid(s.items, id);
        case _ =>
      }
      ReachableValid(Apply(s, actions[0]), actions[1..]);
    }
  }

  /** Whatever ran before, opening leaves the drawer open and closing leaves
      it closed, and neither touches the lines. */
  lemma DrawerToggles(s: CartState, actions: seq<Action>)
    ensures Run(s, actions + [OpenDrawer]).isCartOpen
    ensures !Run(s, actions + [CloseDrawer]).isCartOpen
    ensures Run(s, actions + [OpenDrawer]).items == Run(s, actions).items
    ensures Run(s, actions + [CloseDrawer]).items == Run(s, actions).items
  {
    RunAppend(s, actions, [OpenDrawer]);
    RunAppend(s, actions, [CloseDrawer]);
  }
}

=== FILE: catalogue.dfy ===
/** The storefront's product grid: the category select's options, the
    search / category / price filter, the page count, the page slice and
    the Previous / Next buttons. */
module Catalogue {
  import opened Wrappers
  import Text

  datatype Condition = New | Used

  /** A listed product, as the products endpoint returns it (images and
      timestamps left out). */
  datatype Product = Product(
    id: string,
    seller: string,
    title: string,
    description: string,
    price: real,
    condition: Condition,
    categoryName: string)

  datatype Category = Category(id: string, name: string, description: string)

  /** The filter inputs held by the grid: search text, selected category
      (null when cleared) and the inclusive price range. */
  datatype Filters = Filters(searchTerm: string, selectedCategory: Option<string>, lo: real, hi: real)

  /** The grid's initial filters. */
  const DefaultFilters: Filters := Filters("", None, 0.0, 1000000.0)

  const ProductsPerPage: nat := 12

  /** One entry of the category select. */
  datatype SelectOption = SelectOption(value: string, display: string)

  const AllOption: SelectOption := SelectOption("All", "All")

  // ---------------------------------------------------------------------
  // Category options

  /** The select's options: the static "All" entry, then one entry per
      fetched category, in order; only "All" while categories are missing. */
  function CategoryOptions(categories: Option<seq<Category>>): (r: seq<SelectOption>)
    ensures |r| >= 1 && r[0] == AllOption
    ensures categories.None? ==> r == [AllOption]
    ensures categories.Some? ==>
      && |r| == 1 + |categories.value|
      && forall i :: 0 <= i < |categories.value| ==>
           r[i + 1].value == categories.value[i].name && r[i + 1].display == r[i + 1].value
  {
    match categories
    case None => [AllOption]
    case Some(cs) => [AllOption] + seq(|cs|, i requires 0 <= i < |cs| => SelectOption(cs[i].name, cs[i].name))
  }

  /** The select's `onChange`: `option?.value || null`, so clearing the select
      and an option with an empty value both clear the category. */
  function SelectCategory(option: Option<SelectOption>): (r: Option<string>)
    ensures r.Some? <==> option.Some? && option.value.value != ""
    ensures r.Some? ==> r.value == option.value.value
  {
    match option
    case None => None
    case Some(o) => if o.value == "" then None else Some(o.value)
  }

  // ---------------------------------------------------------------------
  // Filtering

  /** `title.toLowerCase().includes(term.toLowerCase())`: the lower-cased
      term occurs somewhere in the lower-cased title; the empty term matches
      every title. */
  function MatchesSearch(p: Product, term: string): (r: bool)
    ensures r <==> exists i :: Text.OccursAt(Text.Lower(p.title), Text.Lower(term), i)
    ensures term == "" ==> r
  {
    Text.ContainsIffOccurs(Text.Lower(p.title), Text.Lower(term));
    Text.Contains(Text.Lower(p.title), Text.Lower(term))
  }

  /** `!selectedCategory || selectedCategory === "All" || ...`: both null and
      the empty string are falsy, so either keeps every category, as "All"
      does; any other selection keeps exactly that category's products. */
  function MatchesCategory(p: Product, selected: Option<string>): (r: bool)
    ensures selected == None || selected == Some("") || selected == Some("All") ==> r
    ensures selected.Some? && selected.value != "" && selected.value != "All" ==>
      (r <==> p.categoryName == selected.value)
  {
    match selected
    case None => true
    case Some(c) => c == "" || c == "All" || p.categoryName == c
  }

  /** The inclusive price range: every price in it is kept, both ends
      included, every price outside it is dropped, and an inverted range
      keeps nothing. */
  function MatchesPrice(p: Product, lo: real, hi: real): (r: bool)
    ensures lo <= p.price <= hi ==> r
    ensures p.price < lo || hi < p.price ==> !r
  {
    lo <= p.price <= hi
  }

  /** The filter's predicate: the term occurs in the title, the category is
      accepted and the price lies in the range, all three at once. */
  function Keep(f: Filters, p: Product): (r: bool)
    ensures r <==>
      && (exists i :: Text.OccursAt(Text.Lower(p.title), Text.Lower(f.searchTerm), i))
      && MatchesCategory(p, f.selectedCategory)
      && f.lo <= p.price <= f.hi
  {
    MatchesSearch(p, f.searchTerm) && MatchesCategory(p, f.selectedCategory) && MatchesPrice(p, f.lo, f.hi)
  }

  /** `a` is an order-preserving subsequence of `b`. */
  ghost predicate IsSubsequence<T>(a: seq<T>, b: seq<T>)
    decreases |b|
  {
    if |a| == 0 then true
    else if |b| == 0 then false
    else (a[0] == b[0] && IsSubsequence(a[1..], b[1..])) || IsSubsequence(a, b[1..])
  }

  /** `Array.prototype.filter` with `Keep`: the kept products, in their
      original order, each as often as it occurs. */
  function FilterList(ps: seq<Product>, f: Filters): (r: seq<Product>)
    ensures IsSubsequence(r, ps)
    ensures forall x :: multiset(r)[x] == (if Keep(f, x) then multiset(ps)[x] else 0)
    decreases |ps|
  {
    if |ps| == 0 then []
    else
      var rest := FilterList(ps[1..], f);
      assert ps == [ps[0]] + ps[1..];
      if Keep(f, ps[0]) then
        assert ([ps[0]] + rest)[1..] == rest;
        [ps[0]] + rest
      else
        rest
  }

  /** `filteredProducts`: nothing until the product list has loaded. */
  function FilteredProducts(products: Option<seq<Product>>, f: Filters): (r: seq<Product>)
    ensures products.None? ==> r == []
    ensures products.Some? ==> IsSubsequence(r, products.value)
    ensures forall x :: multiset(r)[x] == (if products.Some? && Keep(f, x) then multiset(products.value)[x] else 0)
  {
    match products
    case None => []
    case Some(ps) => FilterList(ps, f)
  }

  /** Every kept product satisfies the filter and was in the input; every
      input product satisfying the filter is kept. */
  lemma FilterMembership(ps: seq<Product>, f: Filters, x: Product)
    ensures x in FilterList(ps, f) <==> x in ps && Keep(f, x)
  {
    assert x in FilterList(ps, f) <==> multiset(FilterList(ps, f))[x] > 0;
    assert x in ps <==> multiset(ps)[x] > 0;
  }

  /** Filtering partitions the products: the kept ones and the dropped ones
      together are all of them. */
  lemma {:induction false} FilterPartition(ps: seq<Product>, f: Filters)
    ensures |FilterList(ps, f)| + CountRejected(ps, f) == |ps|
    decreases |ps|
  {
    if |ps| > 0 {
      FilterPartition(ps[1..], f);
    }
  }

  /** Number of products the filter drops. */
  function CountRejected(ps: seq<Product>, f: Filters): nat
    decreases |ps|
  {
    if |ps| == 0 then 0 else (if Keep(f, ps[0]) then 0 else 1) + CountRejected(ps[1..], f)
  }

  /** The initial filters keep exactly the products priced within
      [0, 1000000]: the empty search term occurs in every title. */
  lemma DefaultFiltersKeep(p: Product)
    ensures Keep(DefaultFilters, p) <==> 0.0 <= p.price <= 1000000.0
  {
    assert Text.Lower("") == "";
  }

  /** With the initial filters and every price in range, the grid shows the
      whole product list. */
  lemma {:induction false} DefaultFiltersKeepAll(ps: seq<Product>)
    requires forall i :: 0 <= i < |ps| ==> 0.0 <= ps[i].price <= 1000000.0
    ensures FilterList(ps, DefaultFilters) == ps
    decreases |ps|
  {
    if |ps| > 0 {
      DefaultFiltersKeep(ps[0]);
      DefaultFiltersKeepAll(ps[1..]);
    }
  }

  // ---------------------------------------------------------------------
  // Pagination

  /** `Math.ceil(n / 12)`: the fewest pages of twelve that hold `n` items. */
  function TotalPages(n: nat): (t: nat)
    ensures t * ProductsPerPage >= n
    ensures t > 0 ==> (t - 1) * ProductsPerPage < n
    ensures t == 0 <==> n == 0
  {
    (n + ProductsPerPage - 1) / ProductsPerPage
  }

  /** Where `Array.prototype.slice` resolves an index: an index in range is
      itself, a negative one counts back from the end, and the result is
      clamped into [0, len]. */
  function SliceIndex(len: nat, x: int): (r: nat)
    ensures r <= len
    ensures 0 <= x <= len ==> r == x
    ensures x < 0 && 0 <= len + x ==> r == len + x
    ensures len + x < 0 ==> r == 0
    ensures x > len ==> r == len
  {
    if x < 0 then (if len + x < 0 then 0 else len + x)
    else if x > len then len
    else x
  }

  /** `s.slice(start, end)`: the elements from the resolved start up to the
      resolved end, or none when the end does not lie after the start. */
  function Slice<T>(s: seq<T>, start: int, end: int): (r: seq<T>)
    ensures |r| <= |s|
    ensures SliceIndex(|s|, end) <= SliceIndex(|s|, start) ==> r == []
    ensures SliceIndex(|s|, start) < SliceIndex(|s|, end) ==>
      && |r| == SliceIndex(|s|, end) - SliceIndex(|s|, start)
      && forall i :: 0 <= i < |r| ==> r[i] == s[SliceIndex(|s|, start) + i]
    ensures 0 <= start <= end ==>
      r == s[SliceIndex(|s|, start)..SliceIndex(|s|, end)]
  {
    var from := SliceIndex(|s|, start);
    var to := SliceIndex(|s|, end);
    if to <= from then [] else s[from..to]
  }

  /** `paginatedProducts` for page `p`: items [(p-1)*12, (p-1)*12 + 12). */
  function Page(items: seq<Product>, p: int): (r: seq<Product>)
    ensures |r| <= ProductsPerPage
    ensures p >= 1 && (p - 1) * ProductsPerPage < |items| ==>
      r == items[(p - 1) * ProductsPerPage..Min(p * ProductsPerPage, |items|)]
    ensures p == 0 || p > TotalPages(|items|) ==> r == []
  {
    var start := (p - 1) * ProductsPerPage;
    Slice(items, start, start + ProductsPerPage)
  }

  function Min(a: int, b: int): int
  {
    if a <= b then a else b
  }

  /** Pages 1 to `k`, concatenated. */
  function PagesUpTo(items: seq<Product>, k: nat): seq<Product>
    decreases k
  {
    if k == 0 then [] else PagesUpTo(items, k - 1) + Page(items, k)
  }

  /** The first `k` pages hold exactly the first `12 k` items. */
  lemma {:induction false} PagesUpToPrefix(items: seq<Product>, k: nat)
    ensures PagesUpTo(items, k) == items[..Min(k * ProductsPerPage, |items|)]
    decreases k
  {
    if k > 0 {
      PagesUpToPrefix(items, k - 1);
      var a := Min((k - 1) * ProductsPerPage, |items|);
      var b := Min(k * ProductsPerPage, |items|);
      if (k - 1) * ProductsPerPage < |items| {
        assert items[..b] == items[..a] + items[a..b];
      } else {
        assert Page(items, k) == [];
      }
    }
  }

  /** Concatenating pages 1 to `totalPages` gives back the filtered list: no
      item is lost or repeated across pages. */
  lemma PagesCoverAll(items: seq<Product>)
    ensures PagesUpTo(items, TotalPages(|items|)) == items
  {
    PagesUpToPrefix(items, TotalPages(|items|));
  }

  /** The Previous button: one page back, never below page 1. */
  function PrevPage(current: int): (r: int)
    ensures r >= 1
    ensures current > 1 ==> r == current - 1
    ensures current <= 1 ==> r == 1
  {
    if current - 1 > 1 then current - 1 else 1
  }

  /** The Next button: one page forward, never beyond `totalPages` (so 0 when
      nothing matches). */
  function NextPage(current: int, totalPages: nat): (r: int)
    ensures r <= totalPages
    ensures current < totalPages ==> r == current + 1
    ensures current >= totalPages ==> r == totalPages
  {
    if current + 1 < totalPages then current + 1 else totalPages
  }

  datatype Click = PrevClick | NextClick

  /** The page after a click; a disabled button (Previous on page 1, Next on
      the last page) does nothing, which is exactly what its handler would
      have done, so a click always lands where the handler sends it. */
  function OnClick(current: int, totalPages: nat, c: Click): (r: int)
    ensures c == PrevClick ==> r == PrevPage(current)
    ensures c == NextClick ==> r == NextPage(current, totalPages)
  {
    match c
    case PrevClick => if current == 1 then current else PrevPage(current)
    case NextClick => if current == totalPages then current else NextPage(current, totalPages)
  }

  /** The buttons are disabled exactly where their handler would have left
      the page unchanged anyway: Previous is a no-op only on page 1, Next
      only on the last page. */
  lemma DisabledButtonsAreNoOps(current: int, totalPages: nat)
    ensures PrevPage(current) == current <==> current == 1
    ensures NextPage(current, totalPages) == current <==> current == totalPages
  {
  }

  /** A run of clicks, each paired with the page count at that moment (the
      count changes as the filters change). See `NavigateStaysNonNegative`
      for what holds in general; the page stays within [1, totalPages] only
      while the count is fixed (`NavigateStaysInRange`): a count that shrinks
      below the current page leaves the page out of range. */
  function Navigate(current: int, clicks: seq<(Click, nat)>): int
    decreases |clicks|
  {
    if |clicks| == 0 then current
    else Navigate(OnClick(current, clicks[0].1, clicks[0].0), clicks[1..])
  }

  lemma {:induction false} NavigateStaysNonNegative(current: int, clicks: seq<(Click, nat)>)
    requires current >= 0
    ensures Navigate(current, clicks) >= 0
    ensures |clicks| > 0 && Navigate(current, clicks) == 0 ==>
      clicks[|clicks| - 1] == (NextClick, 0)
    decreases |clicks|
  {
    if |clicks| > 0 {
      var next := OnClick(current, clicks[0].1, clicks[0].0);
      NavigateStaysNonNegative(next, clicks[1..]);
      if |clicks| > 1 {
        assert clicks[1..][|clicks| - 2] == clicks[|clicks| - 1];
      }
    }
  }

  /** With a fixed, positive page count, a page in range stays in range. */
  lemma {:induction false} NavigateStaysInRange(current: int, totalPages: nat, clicks: seq<Click>)
    requires 1 <= current <= totalPages
    ensures 1 <= NavigateFixed(current, totalPages, clicks) <= totalPages
    decreases |clicks|
  {
    if |clicks| > 0 {
      NavigateStaysInRange(OnClick(current, totalPages, clicks[0]), totalPages, clicks[1..]);
    }
  }

  function NavigateFixed(current: int, totalPages: nat, clicks: seq<Click>): int
    decreases |clicks|
  {
    if |clicks| == 0 then current
    else NavigateFixed(OnClick(current, totalPages, clicks[0]), totalPages, clicks[1..])
  }

  /** Page 0 is reachable (Next while nothing matches) and then shows
      nothing, whatever the filtered list holds later. */
  lemma PageZeroShowsNothing(items: seq<Product>)
    ensures OnClick(1, 0, NextClick) == 0
    ensures Page(items, 0) == []
  {
  }

  // ---------------------------------------------------------------------
  // Category selection and filtering together

  /** Choosing an option in the select keeps a product exactly when the
      option is "All" (or cleared) or names the product's category. */
  lemma SelectedOptionFilters(categories: Option<seq<Category>>, option: Option<SelectOption>, p: Product)
    requires option.None? || option.value in CategoryOptions(categories)
    ensures MatchesCategory(p, SelectCategory(option)) <==>
      option.None? || option.value.value in {"", "All"} || p.categoryName == option.value.value
  {
  }
}

=== FILE: listings.dfy ===
/** The seller's own listings on the profile page: the list after an update
    or a delete succeeds, the edit form and the expanded card. */
module Listings {
  import opened Wrappers
  import opened Catalogue

  /** The component's local state next to the listings it renders: the id
      under edit (`""` for none), the expanded id and the edit form
      (`None` for the initial empty object). `listings` is a prop: after a
      successful update or delete it stands for the new list the component
      hands to the parent's `updateListings`, not for a list it stores. */
  datatype View = View(listings: seq<Product>, editingId: string, expandedId: Option<string>, form: Option<Product>)

  const InitialEditingId: string := ""

  /** The update `onSuccess` list: every listing with the updated id is
      replaced by the server's copy. */
  function ReplaceById(listings: seq<Product>, updated: Product): (r: seq<Product>)
    ensures |r| == |listings|
    ensures forall i :: 0 <= i < |r| ==> r[i].id == listings[i].id
    ensures forall i :: 0 <= i < |r| && listings[i].id != updated.id ==> r[i] == listings[i]
    ensures forall i :: 0 <= i < |r| && listings[i].id == updated.id ==> r[i] == updated
  {
    seq(|listings|, i requires 0 <= i < |listings| => if listings[i].id == updated.id then updated else listings[i])
  }

  /** The delete `onSuccess` list: every listing with the deleted id goes,
      the others stay in order. */
  function DeleteById(listings: seq<Product>, id: string): (r: seq<Product>)
    ensures forall x :: x in r ==> x.id != id
    ensures forall x :: multiset(r)[x] == (if x.id == id then 0 else multiset(listings)[x])
    ensures IsSubsequence(r, listings)
    decreases |listings|
  {
    if |listings| == 0 then []
    else
      var rest := DeleteById(listings[1..], id);
      assert listings == [listings[0]] + listings[1..];
      if listings[0].id == id then rest
      else
        assert ([listings[0]] + rest)[1..] == rest;
        [listings[0]] + rest
  }

  /** Update success: the new list handed to the parent, and editing ends. */
  function OnUpdateSuccess(v: View, updated: Product): (r: View)
    ensures r.editingId == ""
    ensures r.listings == ReplaceById(v.listings, updated)
    ensures r.expandedId == v.expandedId && r.form == v.form
  {
    v.(listings := ReplaceById(v.listings, updated), editingId := "")
  }

  /** Delete success: the new list handed to the parent; the component's own
      state does not change. */
  function OnDeleteSuccess(v: View, id: string): (r: View)
    ensures r.listings == DeleteById(v.listings, id)
    ensures r.editingId == v.editingId && r.expandedId == v.expandedId && r.form == v.form
  {
    v.(listings := DeleteById(v.listings, id))
  }

  /** `handleEdit`: edit this listing, starting from its current values. */
  function HandleEdit(v: View, listing: Product): (r: View)
    ensures r.editingId == listing.id && r.form == Some(listing)
    ensures r.listings == v.listings && r.expandedId == v.expandedId
  {
    v.(editingId := listing.id, form := Some(listing))
  }

  /** `toggleExpand`: collapse the card if it is the expanded one, expand it
      (collapsing any other) otherwise. */
  function ToggleExpand(expanded: Option<string>, id: string): (r: Option<string>)
    ensures r == None <==> expanded == Some(id)
    ensures r != None ==> r == Some(id)
  {
    if expanded == Some(id) then None else Some(id)
  }

  // ---------------------------------------------------------------------
  // Properties

  /** Replacing by an id no listing carries changes nothing; replacing twice
      with the same copy is replacing once. */
  lemma ReplaceByIdLaws(listings: seq<Product>, updated: Product)
    ensures (forall i :: 0 <= i < |listings| ==> listings[i].id != updated.id) ==>
      ReplaceById(listings, updated) == listings
    ensures ReplaceById(ReplaceById(listings, updated), updated) == ReplaceById(listings, updated)
  {
  }

  /** Deleting an id no listing carries changes nothing. */
  lemma {:induction false} DeleteAbsentIsIdentity(listings: seq<Product>, id: string)
    requires forall i :: 0 <= i < |listings| ==> listings[i].id != id
    ensures DeleteById(listings, id) == listings
    decreases |listings|
  {
    if |listings| > 0 {
      DeleteAbsentIsIdentity(listings[1..], id);
    }
  }

  /** Deleting twice is deleting once. */
  lemma DeleteIdempotent(listings: seq<Product>, id: string)
    ensures DeleteById(DeleteById(listings, id), id) == DeleteById(listings, id)
  {
    var once := DeleteById(listings, id);
    forall i | 0 <= i < |once| ensures once[i].id != id {
      assert once[i] in once;
    }
    DeleteAbsentIsIdentity(once, id);
  }

  /** Deleting removes exactly the listings with that id: the survivors plus
      the matching ones make up the whole list. */
  lemma {:induction false} DeleteCounts(listings: seq<Product>, id: string)
    ensures |DeleteById(listings, id)| + CountId(listings, id) == |listings|
    decreases |listings|
  {
    if |listings| > 0 {
      DeleteCounts(listings[1..], id);
    }
  }

  /** Number of listings carrying `id`. */
  function CountId(listings: seq<Product>, id: string): nat
    decreases |listings|
  {
    if |listings| == 0 then 0 else (if listings[0].id == id then 1 else 0) + CountId(listings[1..], id)
  }

  /** Toggling twice from nothing expanded, or from this card expanded,
      returns to where it started; from another card it ends collapsed. */
  lemma ToggleTwice(expanded: Option<string>, id: string)
    ensures ToggleExpand(ToggleExpand(expanded, id), id) ==
      (if expanded == None || expanded == Some(id) then expanded else None)
  {
  }

  /** Editing a listing and then having that edit saved leaves editing off
      and the list holding the saved copy at the listing's position. */
  lemma EditThenSave(v: View, k: int, saved: Product)
    requires 0 <= k < |v.listings| && saved.id == v.listings[k].id
    ensures var r := OnUpdateSuccess(HandleEdit(v, v.listings[k]), saved);
      r.editingId == InitialEditingId && r.listings[k] == saved && |r.listings| == |v.listings|
  {
  }
}

=== FILE: product_form.dfy ===
/** The create-product page's form: the field values, the chosen image files
    with their preview URLs and base64 contents (three parallel lists), and
    the checks made before the product is created. */
module ProductForm {
  import opened Wrappers
  import opened Catalogue

  /** A file picked in the browser; only its identity matters here. */
  datatype File = File(name: string)

  /** The submitted fields; `images` holds the base64 contents. */
  datatype Form = Form(
    title: string,
    description: string,
    price: real,
    condition: Condition,
    location: string,
    categoryId: string,
    images: seq<string>)

  /** The form together with the chosen files and their preview URLs. */
  datatype FormState = FormState(form: Form, files: seq<File>, previews: seq<string>)

  /** Empty text fields, price 0, condition "New", no images, no files. */
  const Initial: FormState := FormState(Form("", "", 0.0, New, "", "", []), [], [])

  /** The three image lists are parallel: entry `i` of each is the same
      file. */
  predicate Aligned(s: FormState)
  {
    |s.files| == |s.previews| == |s.form.images|
  }

  /** The two lists the page shows and submits are parallel: entry `i` of
      the thumbnails and of the submitted contents is the same image. The
      file list is written but never read. */
  predicate VisiblePaired(s: FormState)
  {
    |s.previews| == |s.form.images|
  }

  /** The base64 contents of the files, read one after the other; `None` as
      soon as a read fails (the awaited promise rejects). */
  function ReadAll(fs: seq<File>, read: File -> Option<string>): (r: Option<seq<string>>)
    ensures r.Some? <==> forall i :: 0 <= i < |fs| ==> read(fs[i]).Some?
    ensures r.Some? ==> |r.value| == |fs| && forall i :: 0 <= i < |fs| ==> r.value[i] == read(fs[i]).value
    decreases |fs|
  {
    if |fs| == 0 then Some([])
    else
      match read(fs[0])
      case None => None
      case Some(head) =>
        match ReadAll(fs[1..], read)
        case None => None
        case Some(tail) => Some([head] + tail)
  }

  /** The preview URL of each file, in order. */
  function Previews(fs: seq<File>, preview: File -> string): (r: seq<string>)
    ensures |r| == |fs| && forall i :: 0 <= i < |fs| ==> r[i] == preview(fs[i])
  {
    seq(|fs|, i requires 0 <= i < |fs| => preview(fs[i]))
  }

  /** `handleFileChange` as written: the files are appended first; then each
      file gets a preview URL and is read; a failed read throws out of the
      handler, so the previews and images are only appended when every read
      succeeded. */
  function HandleFileChangeAsWritten(s: FormState, picked: Option<seq<File>>,
                                     preview: File -> string, read: File -> Option<string>): (r: FormState)
    ensures picked.None? ==> r == s
    ensures picked.Some? ==> r.files == s.files + picked.value
    ensures picked.Some? && ReadAll(picked.value, read).None? ==>
      r.previews == s.previews && r.form == s.form
    ensures picked.Some? && ReadAll(picked.value, read).Some? ==>
      && r.previews == s.previews + Previews(picked.value, preview)
      && r.form.images == s.form.images + ReadAll(picked.value, read).value
    ensures VisiblePaired(s) ==> VisiblePaired(r)
    ensures r.form.(images := []) == s.form.(images := [])
  {
    match picked
    case None => s
    case Some(fs) =>
      var s1 := s.(files := s.files + fs);
      match ReadAll(fs, read)
      case None => s1
      case Some(encoded) =>
        s1.(previews := s1.previews + Previews(fs, preview),
            form := s1.form.(images := s1.form.images + encoded))
  }

  /** `handleFileChange` with the three appends made together: all of the
      picked files, previews and contents, or, when a read fails, none. */
  function HandleFileChange(s: FormState, picked: Option<seq<File>>,
                            preview: File -> string, read: File -> Option<string>): (r: FormState)
    ensures Aligned(s) ==> Aligned(r)
    ensures r.form.(images := []) == s.form.(images := [])
    ensures picked.Some? && ReadAll(picked.value, read).Some? ==>
      && r.files == s.files + picked.value
      && r.previews == s.previews + Previews(picked.value, preview)
      && r.form.images == s.form.images + ReadAll(picked.value, read).value
    ensures picked.None? || ReadAll(picked.value, read).None? ==> r == s
  {
    match picked
    case None => s
    case Some(fs) =>
      match ReadAll(fs, read)
      case None => s
      case Some(encoded) =>
        FormState(s.form.(images := s.form.images + encoded),
                  s.files + fs,
                  s.previews + Previews(fs, preview))
  }

  /** `filter((_, i) => i !== index)`: drops the entry at `index`, if any. */
  function DropIndex<T>(xs: seq<T>, index: int): (r: seq<T>)
    ensures 0 <= index < |xs| ==> |r| == |xs| - 1
    ensures 0 <= index < |xs| ==> forall i :: 0 <= i < |r| ==> r[i] == (if i < index then xs[i] else xs[i + 1])
    ensures !(0 <= index < |xs|) ==> r == xs
  {
    if 0 <= index < |xs| then xs[..index] + xs[index + 1..] else xs
  }

  /** `removeImage`: the same index leaves all three lists. */
  function RemoveImage(s: FormState, index: int): (r: FormState)
    ensures Aligned(s) ==> Aligned(r)
    ensures VisiblePaired(s) ==> VisiblePaired(r)
    ensures r.files == DropIndex(s.files, index) && r.previews == DropIndex(s.previews, index)
    ensures r.form.images == DropIndex(s.form.images, index)
    ensures r.form.(images := []) == s.form.(images := [])
  {
    FormState(s.form.(images := DropIndex(s.form.images, index)),
              DropIndex(s.files, index),
              DropIndex(s.previews, index))
  }

  datatype Submission =
    | MissingCategory   // "Please select a category"
    | MissingImages     // "Please add at least one image"
    | Create(data: Form)

  /** `handleSubmit`: the category check first, then the image check, then
      one create call with the form as it stands. */
  function Submit(form: Form): (r: Submission)
    ensures r == MissingCategory <==> form.categoryId == ""
    ensures r == MissingImages <==> form.categoryId != "" && |form.images| == 0
    ensures r.Create? <==> form.categoryId != "" && |form.images| > 0
    ensures r.Create? ==> r.data == form
  {
    if form.categoryId == "" then MissingCategory
    else if |form.images| == 0 then MissingImages
    else Create(form)
  }

  // ---------------------------------------------------------------------
  // Properties

  /** When every read succeeds, the handler as written and the corrected one
      agree: picked files are appended in order after the existing ones. */
  lemma AsWrittenAgreesWhenReadsSucceed(s: FormState, fs: seq<File>,
                                        preview: File -> string, read: File -> Option<string>)
    requires forall i :: 0 <= i < |fs| ==> read(fs[i]).Some?
    ensures HandleFileChangeAsWritten(s, Some(fs), preview, read) == HandleFileChange(s, Some(fs), preview, read)
  {
  }

  /** The handler as written loses the alignment when a read fails: a
      picked file whose read fails is appended to the files but gets no
      preview and no content. */
  lemma AsWrittenDesyncs(s: FormState, f: File, preview: File -> string, read: File -> Option<string>)
    requires Aligned(s)
    requires read(f).None?
    ensures var r := HandleFileChangeAsWritten(s, Some([f]), preview, read);
      && !Aligned(r)
      && r.files == s.files + [f]
      && r.previews == s.previews
      && r.form.images == s.form.images
  {
    assert [f][0] == f;
  }

  /** Once misaligned, the unread file list keeps a stale entry: starting
      from the initial form, a failed pick of `f1`, a successful pick of `f2`
      and a click on the one thumbnail (entry 0) remove `f2`'s preview and
      content together, as they should, but drop `f1` from the file list and
      leave `f2` there. */
  lemma MisalignedRemoveMismatches(f1: File, f2: File, preview: File -> string, read: File -> Option<string>)
    requires read(f1).None? && read(f2).Some?
    ensures var s := HandleFileChangeAsWritten(Initial, Some([f1]), preview, read);
      var s2 := HandleFileChangeAsWritten(s, Some([f2]), preview, read);
      var s3 := RemoveImage(s2, 0);
      s3.files == [f2] && s3.previews == [] && s3.form.images == []
  {
    AsWrittenDesyncs(Initial, f1, preview, read);
    var s := HandleFileChangeAsWritten(Initial, Some([f1]), preview, read);
    assert ReadAll([f2], read).Some?;
    AsWrittenAgreesWhenReadsSucceed(s, [f2], preview, read);
    assert s.files + [f2] == [f1, f2];
  }

  /** The corrected handler keeps the lists parallel on a failed read: it
      changes nothing at all. */
  lemma CorrectedIgnoresFailedPick(s: FormState, fs: seq<File>, k: int,
                                   preview: File -> string, read: File -> Option<string>)
    requires 0 <= k < |fs| && read(fs[k]).None?
    ensures HandleFileChange(s, Some(fs), preview, read) == s
  {
  }

  /** The page's events as written: any picks and removals keep the
      thumbnails and the submitted contents paired, so the misalignment of the
      file list cannot be seen; a failed pick only vanishes without a word. */
  lemma {:induction false} AsWrittenKeepsVisiblePaired(s: FormState, events: seq<Event>,
                                                       preview: File -> string, read: File -> Option<string>)
    requires VisiblePaired(s)
    ensures VisiblePaired(RunAsWritten(s, events, preview, read))
    decreases |events|
  {
    if |events| > 0 {
      AsWrittenKeepsVisiblePaired(StepAsWritten(s, events[0], preview, read), events[1..], preview, read);
    }
  }

  datatype Event =
    | Pick(picked: Option<seq<File>>)
    | Remove(index: int)
    | ChooseCategory(id: string)
    | ChooseCondition(condition: Condition)

  function Step(s: FormState, e: Event, preview: File -> string, read: File -> Option<string>): FormState
  {
    match e
    case Pick(p) => HandleFileChange(s, p, preview, read)
    case Remove(i) => RemoveImage(s, i)
    case ChooseCategory(id) => s.(form := s.form.(categoryId := id))
    case ChooseCondition(c) => s.(form := s.form.(condition := c))
  }

  function Run(s: FormState, events: seq<Event>, preview: File -> string, read: File -> Option<string>): FormState
    decreases |events|
  {
    if |events| == 0 then s else Run(Step(s, events[0], preview, read), events[1..], preview, read)
  }

  /** `Step` with the handler as written. */
  function StepAsWritten(s: FormState, e: Event, preview: File -> string, read: File -> Option<string>): FormState
  {
    match e
    case Pick(p) => HandleFileChangeAsWritten(s, p, preview, read)
    case _ => Step(s, e, preview, read)
  }

  function RunAsWritten(s: FormState, events: seq<Event>, preview: File -> string, read: File -> Option<string>): FormState
    decreases |events|
  {
    if |events| == 0 then s else RunAsWritten(StepAsWritten(s, events[0], preview, read), events[1..], preview, read)
  }

  /** From the initial form, whatever the user picks and removes, the three
      image lists stay parallel. */
  lemma {:induction false} ReachableAligned(s: FormState, events: seq<Event>,
                                            preview: File -> string, read: File -> Option<string>)
    requires Aligned(s)
    ensures Aligned(Run(s, events, preview, read))
    decreases |events|
  {
    if |events| > 0 {
      ReachableAligned(Step(s, events[0], preview, read), events[1..], preview, read);
    }
  }

  /** A form fresh from the page is rejected for its missing category, even
      after images were added. */
  lemma FreshFormNeedsCategory(s: FormState)
    requires s.form.categoryId == Initial.form.categoryId
    ensures Submit(s.form) == MissingCategory
  {
  }
}

=== FILE: refresh.dfy ===
/** The HTTP client's response interceptor: on a 401 for a request not yet
    retried, and while no refresh is running, it refreshes the access token
    once and re-sends the request once. The server is an oracle: the replies
    it gives to successive sends, in order. The same interceptor appears in
    both copies of the API client. */
module RefreshInterceptor {

  /** What the interceptor sees of a request config: HTTP verb, path and the
      `_retry` mark it adds. */
  datatype Request = Request(verb: string, path: string, retried: bool)

  /** A reply: an HTTP status, or no response at all (network failure). */
  datatype Reply = Status(code: int) | NoResponse

  /** The rejected error: the request config and the reply, if any. */
  datatype HttpError = HttpError(config: Request, reply: Reply)

  /** What the caller's promise settles to. */
  datatype Outcome = Resolved(request: Request, code: int) | Rejected(error: HttpError)

  /** The settled outcome, the global `isRefreshing` flag afterwards, the
      replies not yet consumed and the requests sent, in order. */
  datatype Exchange = Exchange(outcome: Outcome, isRefreshing: bool, rest: seq<Reply>, sent: seq<Request>)

  /** The token refresh call the interceptor issues. */
  const RefreshCall: Request := Request("POST", "/auth/token/refresh", false)

  const Unauthorized: int := 401

  /** The client accepts a 2xx status; everything else rejects. */
  predicate IsSuccess(reply: Reply)
  {
    reply.Status? && 200 <= reply.code < 300
  }

  /** The next reply of the oracle; an exhausted oracle answers like a
      network failure. */
  function NextReply(server: seq<Reply>): Reply
  {
    if |server| == 0 then NoResponse else server[0]
  }

  function AfterReply(server: seq<Reply>): seq<Reply>
  {
    if |server| == 0 then [] else server[1..]
  }

  /** Termination measure: a send with the flag clear or the request unmarked
      may lead to further sends, each of which has one of them set. */
  function Rank(req: Request, refreshing: bool): nat
  {
    (if refreshing then 0 else 2) + (if req.retried then 0 else 1)
  }

  /** One send through the client: the transport consumes one reply; a 2xx
      resolves, anything else goes to the error handler. */
  function Send(req: Request, refreshing: bool, server: seq<Reply>): (r: Exchange)
    ensures r.isRefreshing == refreshing
    ensures 1 <= |r.sent| <= 3 && r.sent[0] == req
    ensures refreshing || req.retried ==> |r.sent| == 1
    decreases Rank(req, refreshing), 1
  {
    var reply := NextReply(server);
    if IsSuccess(reply) then
      Exchange(Resolved(req, reply.code), refreshing, AfterReply(server), [req])
    else
      var handled := OnError(HttpError(req, reply), refreshing, AfterReply(server));
      handled.(sent := [req] + handled.sent)
  }

  /** The interceptor's error handler. */
  function OnError(err: HttpError, refreshing: bool, server: seq<Reply>): (r: Exchange)
    ensures r.isRefreshing == refreshing
    ensures |r.sent| <= 2
    ensures |r.sent| > 0 ==> r.sent[0] == RefreshCall
    ensures |r.sent| == 2 ==> r.sent[1] == err.config.(retried := true)
    ensures err.reply != Status(Unauthorized) || err.config.retried || refreshing ==>
      r == Exchange(Rejected(err), refreshing, server, [])
    decreases Rank(err.config, refreshing), 0
  {
    if err.reply == Status(Unauthorized) && !err.config.retried && !refreshing then
      // isRefreshing = true while the refresh call is in flight
      var refresh := Send(RefreshCall, true, server);
      if refresh.outcome.Resolved? then
        // isRefreshing = false; mark the request and re-send it; the
        // re-send's own outcome is returned as it is
        var retry := Send(err.config.(retried := true), false, refresh.rest);
        retry.(sent := refresh.sent + retry.sent)
      else
        // isRefreshing = false; reject with the original error
        Exchange(Rejected(err), false, refresh.rest, refresh.sent)
    else
      Exchange(Rejected(err), refreshing, server, [])
  }

  // ---------------------------------------------------------------------
  // Properties

  /** A 2xx reply passes through unchanged, with nothing else sent. */
  lemma SuccessPassesThrough(req: Request, refreshing: bool, server: seq<Reply>)
    requires |server| > 0 && IsSuccess(server[0])
    ensures Send(req, refreshing, server) ==
      Exchange(Resolved(req, server[0].code), refreshing, server[1..], [req])
  {
  }

  /** A failure other than 401 (including no response at all) is rejected
      with the same error: no refresh, nothing sent, flag untouched. */
  lemma OtherErrorsRejected(err: HttpError, refreshing: bool, server: seq<Reply>)
    requires err.reply != Status(Unauthorized)
    ensures OnError(err, refreshing, server) == Exchange(Rejected(err), refreshing, server, [])
  {
  }

  /** A 401 on a request already retried, or while a refresh is running, is
      rejected without a refresh. */
  lemma GuardedUnauthorizedRejected(err: HttpError, refreshing: bool, server: seq<Reply>)
    requires err.reply == Status(Unauthorized)
    requires err.config.retried || refreshing
    ensures OnError(err, refreshing, server) == Exchange(Rejected(err), refreshing, server, [])
  {
  }

  /** When the refresh call fails, whatever its reply (a 401 on the refresh
      call itself included, which does not recurse), the original error is
      rejected after that single call and the flag is clear again. */
  lemma RefreshFailureRejectsOriginal(req: Request, server: seq<Reply>)
    requires !req.retried
    requires !IsSuccess(NextReply(server))
    ensures OnError(HttpError(req, Status(Unauthorized)), false, server) ==
      Exchange(Rejected(HttpError(req, Status(Unauthorized))), false, AfterReply(server), [RefreshCall])
  {
    var refresh := Send(RefreshCall, true, server);
    assert refresh.outcome.Rejected?;
  }

  /** When the refresh call succeeds, the request is marked and re-sent
      exactly once, and its reply settles the caller's promise: a 2xx
      resolves, anything else (another 401 included) rejects with the
      re-sent request's error, with no further refresh. */
  lemma RefreshSuccessRetriesOnce(req: Request, server: seq<Reply>)
    requires !req.retried
    requires |server| > 0 && IsSuccess(server[0])
    ensures var r := OnError(HttpError(req, Status(Unauthorized)), false, server);
      var again := req.(retried := true);
      var reply := NextReply(server[1..]);
      && r.sent == [RefreshCall, again]
      && r.isRefreshing == false
      && r.rest == AfterReply(server[1..])
      && r.outcome == (if IsSuccess(reply) then Resolved(again, reply.code) else Rejected(HttpError(again, reply)))
  {
  }

  /** Per original request the client sends at most three requests: the
      request, one refresh call, and the request once more marked as retried;
      the flag is clear again afterwards. */
  lemma {:induction false} BoundedRetry(req: Request, server: seq<Reply>)
    ensures var r := Send(req, false, server);
      && 1 <= |r.sent| <= 3
      && r.sent[0] == req
      && (|r.sent| >= 2 ==> !req.retried && r.sent[1] == RefreshCall)
      && (|r.sent| == 3 ==> r.sent[2] == req.(retried := true))
      && !r.isRefreshing
      && (|r.sent| == 2 ==> r.outcome.Rejected? && r.outcome.error.config == req)
  {
    var reply := NextReply(server);
    if !IsSuccess(reply) {
      var err := HttpError(req, reply);
      var handled := OnError(err, false, AfterReply(server));
      if reply == Status(Unauthorized) && !req.retried {
        var refresh := Send(RefreshCall, true, AfterReply(server));
        if refresh.outcome.Rejected? {
          assert handled.outcome == Rejected(err);
        } else {
          assert |handled.sent| == 2;
        }
      }
    }
  }

  /** The scenario: 401 once, refresh succeeds, the retried request succeeds. */
  lemma ScenarioRecovered(req: Request)
    requires !req.retried
    ensures Send(req, false, [Status(401), Status(200), Status(200)]) ==
      Exchange(Resolved(req.(retried := true), 200), false, [], [req, RefreshCall, req.(retried := true)])
  {
    var server := [Status(401), Status(200), Status(200)];
    assert AfterReply(server) == [Status(200), Status(200)];
    RefreshSuccessRetriesOnce(req, AfterReply(server));
    assert AfterReply(server)[1..] == [Status(200)];
  }

  /** The scenario: a second 401 on the retried request is not retried again. */
  lemma ScenarioSecondUnauthorized(req: Request)
    requires !req.retried
    ensures var r := Send(req, false, [Status(401), Status(200), Status(401)]);
      r.outcome == Rejected(HttpError(req.(retried := true), Status(401))) && |r.sent| == 3
  {
    var server := [Status(401), Status(200), Status(401)];
    assert AfterReply(server) == [Status(200), Status(401)];
    RefreshSuccessRetriesOnce(req, AfterReply(server));
    assert AfterReply(server)[1..] == [Status(401)];
  }
}

=== FILE: route_guard.dfy ===
/** The edge middleware that gates navigation: signed-in visitors are kept
    off the login and register pages, anonymous visitors are sent to login,
    and the matcher exempts only paths whose text after the leading slash
    starts with `api`, `_next/static`, `_next/image` or `favicon?ico`. Other
    public files (fonts, examples, `/robots.txt`) and `/_next/data` are
    guarded like any page. */
module RouteGuard {

  /** What the middleware sees of a request: its pathname and the names of
      the cookies it carries. */
  datatype Request = Request(pathname: string, cookies: set<string>)

  /** `NextResponse.next()` or `NextResponse.redirect(target)`. */
  datatype Decision = Next | Redirect(target: string)

  const AccessCookie: string := "access_token"
  const Home: string := "/"
  const LoginPage: string := "/login"
  const RegisterPage: string := "/register"

  /** The session signal: the presence of the access cookie, whatever its
      value. */
  predicate IsAuthenticated(req: Request)
  {
    AccessCookie in req.cookies
  }

  /** Auth pages are matched by exact string equality. */
  predicate IsAuthPage(pathname: string)
  {
    pathname in [LoginPage, RegisterPage]
  }

  /** The middleware body. */
  function Guard(req: Request): (d: Decision)
    ensures d == Redirect(Home) <==> IsAuthPage(req.pathname) && IsAuthenticated(req)
    ensures d == Redirect(LoginPage) <==> !IsAuthPage(req.pathname) && !IsAuthenticated(req)
    ensures d == Next <==> IsAuthPage(req.pathname) != IsAuthenticated(req)
  {
    var authenticated := IsAuthenticated(req);
    var authPage := IsAuthPage(req.pathname);
    if authPage && authenticated then Redirect(Home)
    else if !authPage && !authenticated then Redirect(LoginPage)
    else Next
  }

  /** The prefixes the matcher's negative lookahead refuses right after the
      leading slash. In `favicon.ico` the dot is a regular-expression
      wildcard, so any one character stands between `favicon` and `ico`. */
  predicate ExcludedRest(rest: string)
  {
    || "api" <= rest
    || "_next/static" <= rest
    || "_next/image" <= rest
    || (|rest| >= 11 && rest[..7] == "favicon" && rest[8..11] == "ico")
  }

  /** The matcher `/((?!api|_next/static|_next/image|favicon.ico).*)`: a
      pathname is guarded when it starts with `/` and what follows does not
      begin with an excluded prefix. The root is guarded; a path that does
      not start with `/` never is. */
  function Matched(pathname: string): (r: bool)
    ensures r ==> |pathname| > 0 && pathname[0] == '/'
    ensures pathname == "/" ==> r
    ensures |pathname| > 0 && pathname[0] == '/' && ExcludedRest(pathname[1..]) ==> !r
    ensures |pathname| > 0 && pathname[0] == '/' && !ExcludedRest(pathname[1..]) ==> r
  {
    |pathname| > 0 && pathname[0] == '/' && !ExcludedRest(pathname[1..])
  }

  /** What a request meets at the edge: the middleware when the matcher
      selects the path, plain pass-through otherwise. */
  function Route(req: Request): (d: Decision)
    ensures !Matched(req.pathname) ==> d == Next
    ensures Matched(req.pathname) ==> d == Guard(req)
  {
    if Matched(req.pathname) then Guard(req) else Next
  }

  /** Home, login and register are all guarded by the matcher, so the
      redirect targets below are evaluated by the middleware again. */
  lemma PagesAreMatched()
    ensures Matched(Home) && Matched(LoginPage) && Matched(RegisterPage)
  {
    assert Home[1..] == "";
    assert LoginPage[1..] == "login" && "login"[0] == 'l';
    assert RegisterPage[1..] == "register" && "register"[0] == 'r';
  }

  /** No redirect loop: with the same cookies, the request for the redirect
      target passes through. */
  lemma NoRedirectLoop(req: Request)
    ensures Route(req).Redirect? ==>
      Route(Request(Route(req).target, req.cookies)) == Next
  {
    PagesAreMatched();
    assert Home !in [LoginPage, RegisterPage];
  }

  /** API routes, Next.js static and image assets and the favicon are never
      redirected, whatever the cookies. */
  lemma ExcludedPathsPass(rest: string, cookies: set<string>)
    requires ExcludedRest(rest)
    ensures Route(Request("/" + rest, cookies)) == Next
  {
    assert ("/" + rest)[1..] == rest;
  }

  /** The lookahead tests a prefix, not a path segment: `/apiary` and
      `/api-docs` skip the middleware like `/api/products` does, whatever the
      cookies. */
  lemma LookaheadIsPrefixOnly(cookies: set<string>)
    ensures Route(Request("/apiary", cookies)) == Next
    ensures Route(Request("/api-docs", cookies)) == Next
  {
    assert "api" <= "/apiary"[1..];
    assert "api" <= "/api-docs"[1..];
  }

  /** Public files other than the favicon are not exempted by the matcher:
      without the cookie, a font under `/fonts` and `/robots.txt` are
      redirected to login like any protected page. */
  lemma PublicFilesAreGuarded()
    ensures Route(Request("/fonts/a.woff", {})) == Redirect(LoginPage)
    ensures Route(Request("/robots.txt", {})) == Redirect(LoginPage)
  {
    assert "/fonts/a.woff"[1..] == "fonts/a.woff" && "fonts/a.woff"[0] == 'f' && "fonts/a.woff"[1] == 'o';
    assert "/robots.txt"[1..] == "robots.txt" && "robots.txt"[0] == 'r';
    assert "/fonts/a.woff" != LoginPage && "/fonts/a.woff" != RegisterPage;
    assert "/robots.txt" != LoginPage && "/robots.txt" != RegisterPage;
  }

  /** An anonymous visitor reaching any guarded page other than login or
      register is sent to login; a signed-in visitor reaching login or
      register is sent home. */
  lemma GuardScenarios(cookies: set<string>)
    ensures AccessCookie !in cookies ==> Route(Request("/profile", cookies)) == Redirect(LoginPage)
    ensures AccessCookie in cookies ==> Route(Request(LoginPage, cookies)) == Redirect(Home)
  {
    assert "/profile"[1..] == "profile" && "profile"[0] == 'p';
    assert "/profile" != LoginPage && "/profile" != RegisterPage;
    PagesAreMatched();
  }
}

=== FILE: session.dfy ===
/** The auth provider: who is signed in, whether the first profile fetch is
    still pending, and the check / login / logout transitions, each driven
    by the outcome of its API call. */
module Session {
  import opened Wrappers

  /** The profile record the profile endpoint returns (listings, purchases
      and reports left out). */
  datatype Profile = Profile(id: string, username: string, email: string, role: string, balance: string)

  /** Outcome of the profile request: the profile, or any error. */
  datatype ProfileFetch = Fetched(profile: Profile) | FetchFailed

  /** Outcome of the logout request. */
  datatype LogoutCall = LoggedOut | LogoutFailed

  datatype Session = Session(user: Option<Profile>, isLoading: bool)

  const LoginRoute: string := "/login"

  /** State at mount, before the first profile fetch resolves. */
  const Initial: Session := Session(None, true)

  /** The derived `isAuthenticated` flag (`!!user`). */
  predicate IsAuthenticated(s: Session)
  {
    s.user.Some?
  }

  /** `checkAuth`, run at mount: the fetched profile or nobody, and loading is
      over either way. */
  function CheckAuth(s: Session, outcome: ProfileFetch): (r: Session)
    ensures !r.isLoading
    ensures outcome.Fetched? ==> r.user == Some(outcome.profile)
    ensures outcome.FetchFailed? ==> r.user == None
  {
    match outcome
    case Fetched(p) => Session(Some(p), false)
    case FetchFailed => Session(None, false)
  }

  /** `login(token)`: re-fetches the profile; on success loading ends, on
      failure the user is cleared and the loading flag is left alone. The
      token is never read. */
  function Login(s: Session, token: string, outcome: ProfileFetch): (r: Session)
    ensures outcome.Fetched? ==> r == Session(Some(outcome.profile), false)
    ensures outcome.FetchFailed? ==> r.user == None && r.isLoading == s.isLoading
  {
    match outcome
    case Fetched(p) => Session(Some(p), false)
    case FetchFailed => s.(user := None)
  }

  /** `logout`: on success the user is cleared and the UI is sent to the login
      page; on failure nothing changes and nothing navigates. */
  function Logout(s: Session, outcome: LogoutCall): (r: (Session, Option<string>))
    ensures outcome.LoggedOut? ==> r.0 == s.(user := None) && r.1 == Some(LoginRoute)
    ensures outcome.LogoutFailed? ==> r.0 == s && r.1 == None
  {
    match outcome
    case LoggedOut => (s.(user := None), Some(LoginRoute))
    case LogoutFailed => (s, None)
  }

  datatype Event =
    | Check(fetch: ProfileFetch)
    | LogIn(token: string, fetch: ProfileFetch)
    | LogOut(call: LogoutCall)

  function Step(s: Session, e: Event): Session
  {
    match e
    case Check(f) => CheckAuth(s, f)
    case LogIn(t, f) => Login(s, t, f)
    case LogOut(c) => Logout(s, c).0
  }

  function Run(s: Session, events: seq<Event>): Session
    decreases |events|
  {
    if |events| == 0 then s else Run(Step(s, events[0]), events[1..])
  }

  /** An event that ends the loading phase. */
  predicate Resolves(e: Event)
  {
    e.Check? || (e.LogIn? && e.fetch.Fetched?)
  }

  // ---------------------------------------------------------------------
  // Properties

  /** A successful check or login always leaves a user signed in; a failed
      one never does. */
  lemma AuthenticatedAfterSuccess(s: Session, token: string, p: Profile)
    ensures IsAuthenticated(CheckAuth(s, Fetched(p))) && IsAuthenticated(Login(s, token, Fetched(p)))
    ensures !IsAuthenticated(CheckAuth(s, FetchFailed)) && !IsAuthenticated(Login(s, token, FetchFailed))
  {
  }

  /** The token passed to login has no effect on the resulting state. */
  lemma LoginIgnoresToken(s: Session, t1: string, t2: string, outcome: ProfileFetch)
    ensures Login(s, t1, outcome) == Login(s, t2, outcome)
  {
  }

  /** Loading stays true until a check resolves or a login succeeds, and is
      false forever after. */
  lemma {:induction false} LoadingUntilResolved(s: Session, events: seq<Event>)
    ensures Run(s, events).isLoading <==>
      s.isLoading && forall i :: 0 <= i < |events| ==> !Resolves(events[i])
    decreases |events|
  {
    if |events| > 0 {
      LoadingUntilResolved(Step(s, events[0]), events[1..]);
      assert forall i :: 1 <= i < |events| ==> events[i] == events[1..][i - 1];
    }
  }

  /** From the mount state, loading ends exactly when some event resolved it. */
  lemma InitialLoading(events: seq<Event>)
    ensures Run(Initial, events).isLoading <==> forall i :: 0 <= i < |events| ==> !Resolves(events[i])
  {
    LoadingUntilResolved(Initial, events);
  }

  /** A session that is signed in after a successful logout is impossible,
      and a failed logout keeps whoever was signed in. */
  lemma LogoutOutcomes(s: Session)
    ensures !IsAuthenticated(Logout(s, LoggedOut).0)
    ensures IsAuthenticated(Logout(s, LogoutFailed).0) == IsAuthenticated(s)
  {
  }

  /** The sign-in scenario: from an anonymous session, a successful login
      signs the fetched user in. */
  lemma LoginScenario(p: Profile)
    ensures var s := Run(Initial, [Check(FetchFailed), LogIn("token", Fetched(p))]);
      IsAuthenticated(s) && s.user == Some(p) && !s.isLoading
  {
    var events := [Check(FetchFailed), LogIn("token", Fetched(p))];
    var s1 := Step(Initial, events[0]);
    assert Run(Initial, events) == Run(s1, events[1..]);
    var tail := events[1..];
    assert tail == [LogIn("token", Fetched(p))] && tail[1..] == [];
    assert Run(s1, tail) == Run(Step(s1, tail[0]), tail[1..]) == Step(s1, tail[0]);
  }
}

=== FILE: text.dfy ===
/** The string operations the catalogue search uses: lower-casing and
    substring containment (`String.prototype.includes`). */
module Text {

  /** ASCII lower-casing of one character; every other character is kept. */
  function LowerChar(c: char): (r: char)
    ensures 'A' <= c <= 'Z' ==> 'a' <= r <= 'z'
    ensures !('A' <= c <= 'Z') ==> r == c
  {
    if 'A' <= c <= 'Z' then (c as int + 32) as char else c
  }

  /** Lower-cases a string character by character: every ASCII capital
      becomes its small letter, every other character is kept, and no ASCII
      capital is left. */
  function Lower(s: string): (r: string)
    ensures |r| == |s|
    ensures forall i :: 0 <= i < |s| && 'A' <= s[i] <= 'Z' ==> r[i] as int == s[i] as int + 32
    ensures forall i :: 0 <= i < |s| && !('A' <= s[i] <= 'Z') ==> r[i] == s[i]
    ensures forall i :: 0 <= i < |r| ==> !('A' <= r[i] <= 'Z')
  {
    seq(|s|, i requires 0 <= i < |s| => LowerChar(s[i]))
  }

  /** `s.includes(t)`: some suffix of `s` starts with `t`. A prefix, and in
      particular the empty string, is contained; nothing longer than `s` is. */
  function Contains(s: string, t: string): (r: bool)
    ensures t <= s ==> r
    ensures r ==> |t| <= |s|
    decreases |s|
  {
    t <= s || (|s| > 0 && Contains(s[1..], t))
  }

  /** `t` occurs in `s` starting at position `i`. */
  predicate OccursAt(s: string, t: string, i: int)
  {
    0 <= i && i + |t| <= |s| && s[i..i + |t|] == t
  }

  /** `Contains` holds exactly when `t` occurs in `s` at some position. */
  lemma {:induction false} ContainsIffOccurs(s: string, t: string)
    ensures Contains(s, t) <==> exists i :: OccursAt(s, t, i)
    decreases |s|
  {
    if t <= s {
      assert OccursAt(s, t, 0);
    } else if |s| == 0 {
    } else {
      ContainsIffOccurs(s[1..], t);
      if Contains(s[1..], t) {
        var i :| OccursAt(s[1..], t, i);
        assert s[i + 1..i + 1 + |t|] == s[1..][i..i + |t|];
        assert OccursAt(s, t, i + 1);
      }
      if exists i :: OccursAt(s, t, i) {
        var i :| OccursAt(s, t, i);
        if i > 0 {
          assert s[1..][i - 1..i - 1 + |t|] == s[i..i + |t|];
          assert OccursAt(s[1..], t, i - 1);
        }
      }
    }
  }

  /** Lower-casing twice is lower-casing once. */
  lemma LowerIdempotent(s: string)
    ensures Lower(Lower(s)) == Lower(s)
  {
  }
}

=== FILE: wrappers.dfy ===
/** Optional values, standing in for the source's `null` / `undefined`. */
module Wrappers {

  datatype Option<+T> = None | Some(value: T)
}
